=== FILE: README.md ===
# hip-angle-data: measurement core in Dafny

A model of the measurement logic of the hip-abduction page (`app.js`): the
patient-code check, the planar vector helpers, the body midline and per-hip
abduction angle, the One Euro landmark filter and its bank of 33 filter
triples, the colour zones of the angle read-out, and the recording logic
(the 2-second countdown and the 20 ms sample gate of the main loop).

JavaScript numbers are modelled as exact reals. `Math.acos`, `Math.hypot` and
`Math.PI` are not interpreted: they are passed in as a `MathLib` value, and
the ghost predicate `Geometry.ValidMath` lists the only facts about them the
proofs use: `acos` maps [-1, 1] into [0, pi] with `acos(1) = 0`,
`acos(0) = pi/2` and `acos(-1) = pi`; `hypot(a, b)` is the non-negative number
whose square is `a*a + b*b`; `pi > 0`. The pose detector is replaced by its
output (a landmark list, or nothing), the `prompt` dialog by the sequence of
answers the operator gives, and the timers by explicit events
(`Recorder.Event`: a start press, a countdown tick, a load-button press,
a video frame).

Modules, one per part of the page:

- `Optional`: `Option`, for `null` and the `??` operator.
- `RealArith`: small facts about products, quotients and reciprocals of reals that the filter and angle proofs use.
- `PatientCode`: the code pattern `^[A-Za-z0-9_-]{1,10}$` and the prompt loop.
- `Geometry`: `unit`, `sub`, `dotp`, `ang`.
- `Midline`: `bodyMidlineFromLandmarks`, `abductionPerHip2D`, the average angle.
- `OneEuro`: the filter class as an immutable value with a step function.
- `FilterBank`: `ensureEuroFilters` and the per-frame smoothing.
- `Zones`: `SAFE` and `colAbd`.
- `Recorder`: `startRecording`, the countdown, the load button's code prompt, the main loop's frame pass and sample gate.

## Model

| member | source | states |
|---|---|---|
| PatientCode.MatchesCodePattern | app.js:35 | true exactly when the answer has 1 to 10 characters, each an ASCII letter, a digit, `_` or `-` |
| PatientCode.AskPatientCode | app.js:30-39 | a code the loop returns is acceptable and was typed; the loop ends without a code only if the operator cancelled; while undecided, every answer so far was rejected |
| PatientCode.EnteredIffFirstAcceptable | app.js:32-37 | the loop yields a code exactly when it is the first acceptable answer and every earlier answer was typed and rejected |
| PatientCode.CancelledIffCancelFirst | app.js:33-34 | the loop yields no code exactly when a cancel comes before any acceptable answer |
| Geometry.Sub | app.js:45 | the difference added back to `b` gives `a` |
| Geometry.Unit | app.js:44 | zero vector when the norm is at most 1e-6; otherwise a vector of length one which, scaled by the norm, gives the input back |
| Geometry.Dot | app.js:46 | the dot product of a vector with itself is never negative |
| Geometry.DotSymmetric | app.js:46 | `dotp(a, b)` equals `dotp(b, a)` |
| Geometry.DotSelfIsNormSquared | app.js:44-46 | a vector's dot product with itself is the square of its `Math.hypot` norm, the norm `unit` divides by |
| Geometry.Clamp | app.js:47 | the result lies in [-1, 1] and equals the input when the input already does |
| Geometry.CosineToDegrees | app.js:47 | the clamped cosine turned into degrees lies in [0, 180] |
| Geometry.Ang | app.js:47 | the angle between two vectors lies in [0, 180] |
| Geometry.DotOfUnitsBounded | app.js:46-47 | the dot product of two unit-or-zero vectors lies in [-1, 1] |
| Geometry.ClampIsInactive | app.js:47 | the clamp in `ang` never changes the cosine of two `unit` results |
| Geometry.AngSymmetric | app.js:47 | the angle from a to b equals the angle from b to a |
| Geometry.AngSelfIsZero | app.js:47 | a non-degenerate vector makes 0 degrees with itself |
| Geometry.AngOppositeIsStraight | app.js:47 | a non-degenerate vector makes 180 degrees with its opposite |
| Geometry.AngDegenerateIsRight | app.js:44-47 | against a vector of norm at most 1e-6 the angle reads 90 degrees |
| Midline.MidPoint | app.js:54-59 | the midpoint is equally far from both points on each axis |
| Midline.BodyMidline | app.js:53-62 | `S_mid` and `H_mid` are the shoulder and hip midpoints; `midDown` is of length one or zero: the zero vector when the planar axis `S_mid - H_mid` has norm at most 1e-6, and otherwise that axis divided by its norm |
| Midline.AbductionPerHip2D | app.js:63-67 | the result lies in [0, 180] and equals the thigh-to-midline angle, so the `a > 180` fold never fires |
| Midline.Average | app.js:206 | the average is equally far from the left and the right angle |
| Midline.FrameAngles | app.js:202-206 | both hip angles and their average lie in [0, 180], and the average is the mean |
| Midline.MirrorKeepsMidline | app.js:53-61 | exchanging left and right shoulders and hips leaves `S_mid`, `H_mid` and `midDown` unchanged |
| Midline.MirrorSwapsAngles | app.js:202-206 | exchanging left and right exchanges the two hip angles and keeps the average |
| Midline.DegenerateMidlineReadsRightAngles | app.js:60-64 | when the shoulder and hip midpoints nearly coincide, both hips and the average read 90 degrees |
| OneEuro.Alpha | app.js:77 | the smoothing factor lies strictly between 0 and 1 for positive step and cutoff |
| OneEuro.Dt | app.js:80 | the step in seconds is at least 1e-6 and at least the elapsed milliseconds over 1000, and is one of the two |
| OneEuro.Blend | app.js:83-86 | the blend lies between the previous value and the new one, strictly when they differ, and leaves the share `1 - a` of the gap between them |
| OneEuro.Cutoff | app.js:84 | the adaptive cutoff is never below `minCutoff`, hence positive |
| OneEuro.FilterVec | app.js:78-89 | first call returns `x` and records `(t, x, 0)`; later calls return a value between `xPrev` and `x` (strictly when they differ), record `(t, output, dxHat)` with `dxHat` between `dxPrev` and the raw derivative, and keep the parameters; the distance left to the input is `1 - alpha` of the old gap, with `alpha` taken at the cutoff `minCutoff + beta*abs(dxHat)` of the new derivative |
| OneEuro.Run | app.js:78-89 | repeated calls give one output per input, keep the parameters and end primed at the last timestamp |
| OneEuro.RunStaysWithin | app.js:78-89 | inputs (and the previous output) inside [lo, hi] give outputs inside [lo, hi]: no overshoot |
| OneEuro.ConstantSignalIsFixed | app.js:79-88 | a constant input already held by the filter passes through unchanged |
| OneEuro.AlphaGrowsWithCutoff | app.js:77 | a larger cutoff gives a larger smoothing factor |
| OneEuro.FasterMotionLagsLess | app.js:79-86 | of two started filters with the same parameters, previous time and previous output, fed the same sample, the one whose new derivative estimate is larger in magnitude ends no farther from the input: faster motion is followed more closely |
| OneEuro.SecondSampleIsStrictlyBetween | app.js:73-89 | 0.50 at 0 ms then 0.54 at 16.7 ms with the positional parameters gives an output strictly between them |
| FilterBank.FreshChannels | app.js:94-98 | a new triple uses (2.0, 0.3, 1.0) for x and y, (1.0, 0.1, 1.0) for z, with no history |
| FilterBank.EnsureEuroFilters | app.js:92-99 | an existing bank is returned untouched; a missing one becomes 33 fresh triples with valid parameters |
| FilterBank.EnsureEuroFiltersIdempotent | app.js:93 | a second call changes nothing |
| FilterBank.SmoothLandmark | app.js:191-196 | each axis is filtered by its own filter, which keeps its parameters and afterwards holds `tNow` and that axis's output; missing depth reads 0 and missing visibility 1; outputs equal the inputs on a fresh triple and lie between previous output and input otherwise |
| FilterBank.SmoothFrame | app.js:189-196 | landmark `i` goes through triple `i`, outputs have the input's length, triples past the end keep their state; the loop computes exactly the bank `SmoothedBank` and the frame `SmoothedLandmarks` |
| FilterBank.FirstFramePassesThrough | app.js:79 | on a fresh triple the smoothed landmark is the raw one with the defaults applied |
| Zones.ColAbd | app.js:129-131 | green exactly for [30, 45], yellow exactly for (45, 60], red exactly for the rest |
| Zones.Colour | app.js:130-131 | each zone's colour is `#` followed by six lower-case hexadecimal digits |
| Zones.ColoursDistinct | app.js:130-131 | distinct zones get distinct colours |
| Zones.ZonesAreOrdered | app.js:129-131 | a green angle is below a yellow one and both lie in [30, 60] |
| Recorder.InitialInvariant | app.js:155-157 | the page-load state satisfies the recording invariant |
| Recorder.StartRecording | app.js:159-165 | with a known or newly entered code the data is cleared, recording is on and the countdown starts at 0; otherwise nothing changes; filters and sample clock are untouched |
| Recorder.CountdownTick | app.js:166-175 | each tick adds 20 ms; while running the bar is the elapsed time over 20, i.e. `min(100, elapsed / 20)` percent; the bar is in (0, 100] and reaches 100 exactly when the countdown stops at 2000 ms, which turns recording off; data is untouched |
| Recorder.CountdownStopsAfterHundredTicks | app.js:165-175 | from zero the countdown runs for exactly 100 ticks, elapsing 20 ms each, then stops with recording off |
| Recorder.SampleGate | app.js:214-231 | a sample stamped `tNow` with the frame's angles, midpoints, hips and knees is appended, and the sample clock moved, exactly when recording and at least 20 ms have passed |
| Recorder.GatePreservesInvariant | app.js:214-216 | the gate keeps samples 20 ms apart, stamped with the session code and in-range angles |
| Recorder.LoadVideo | app.js:255-258 | only the session code can change; it changes only when a file is chosen and no code is held, and then to an acceptable code the operator typed; a code entered at the prompt is held afterwards |
| Recorder.LoadVideoPreservesInvariant | app.js:255-258 | pressing the load button keeps the recording invariant |
| Recorder.FrameJoints | app.js:190-201 | shoulders, hips and knees are raw landmarks 11, 12, 23, 24, 25 and 26, each smoothed by the filter triple with the same index |
| Recorder.DetectedFrame | app.js:189-231 | the bank becomes the smoothed bank; when the gate is open exactly one sample is appended, stamped `tNow`, with the session code, the smoothed hips and knees, the midline of the smoothed joints and the two hip angles against it with their mean; when closed the samples and the sample clock are unchanged; the invariant is kept |
| Recorder.ProcessFrame | app.js:184-232 | a frame without landmarks changes nothing; otherwise it is `DetectedFrame`, and one sample is added exactly when the gate is open; the invariant is kept |
| Recorder.Step | app.js:159-258 | a start press runs `startRecording` when idle and is ignored while the countdown runs; a tick advances a running countdown and is ignored otherwise; a load press and a frame do what `LoadVideo` and `ProcessFrame` say; every event keeps the invariant |
| Recorder.Replay | app.js:155-235 | for any interleaving of presses, ticks and frames, samples carry a valid code, have angles in [0, 180] with the average their mean, and are at least 20 ms apart |

## Left out

- MediaPipe setup and `detectForVideo` (app.js:104-124, 186): an opaque foreign model; its landmark list is an input.
- DOM access, canvas drawing (`drawOverlay`), `alert`, button enabling and text labels (app.js:8-24, 136-150, 163-164, 172-173, 207-213, 255-280): user interface only. The `prompt` dialog is replaced by the list of the operator's answers.
- `setInterval`, `requestAnimationFrame`, `await` and the `!pose || !video.videoWidth` and `video.currentTime !== lastVideoTime` checks (app.js:166, 182-187, 234): scheduling; the model takes the events as given.
- JSON export and the `toFixed` rounding of recorded numbers (app.js:216-249): serialisation and IEEE-754 decimal formatting; samples hold exact values.
- Floating-point behaviour of `Math.hypot`, `Math.acos` and `Math.PI`: reasoned about through the facts in `ValidMath` only.
- The rest of the load button's handler (app.js:259-272): it swaps the video source, starts the detector and restarts the frame loop, none of which the measurement state holds.
- OneEuro.Alpha: requires a positive step and cutoff. Real division by zero is undefined in the model; every call site passes `dt >= 1e-6`; the value blend passes a cutoff of at least `minCutoff` and the derivative blend passes `dCutoff`, both positive, and all filters the page builds have positive cutoffs and non-negative `beta`.
- Recorder.ProcessFrame: a detection is the first pose's landmark list, `None` or `Some([])` when `out.landmarks` is empty (app.js:188); a pose with an empty landmark list, which the page would pass to `ensureEuroFilters()` and then fail when reading landmark 11, is not distinguished from no pose.
- Recorder.ProcessFrame: requires between 27 and 33 landmarks per detection; with fewer the page reads a property of `undefined` (landmark 26), and with more it indexes past the 33 filter triples.
- Recorder.StartRecording: requires that no countdown is running, since the start button is disabled from the start of a recording until its countdown ends.
- Recorder.StartRecording: when the operator's answers run out with neither an acceptable code nor a cancel (`StillAsking`), the state is left unchanged; the page would still be inside the prompt loop (app.js:32-37), asking again, which a finite list of answers cannot represent.
- OneEuro.New: the constructor's defaults `{minCutoff = 2.0, beta = 0.3, dCutoff = 1.0} = {}` (app.js:73) are not modelled; every call site passes all three parameters, so the defaults never apply.

Behaviour one might expect of such a tool that the code does not have, and
which the model follows:

- There is no visibility or plausibility gate: every frame with landmarks is measured and may be recorded; frames without landmarks leave no record.
- A degenerate midline gives 90-degree readings (`AngDegenerateIsRight`), not an "undefined" angle.
- `midDown` is not sign-corrected; it is simply `unit(S_mid - H_mid)`.
- The filter bank is created once and never reset, not even for a new video.
- A timestamp earlier than the filter's last one is accepted: the step is clamped to 1e-6 s and `tPrev` moves back to it (app.js:80, 87).
- `lastSampleTime` is not reset by `startRecording`; the sample clock uses page time (`performance.now()`), so the number of samples in the 2-second window depends on the frame rate rather than being fixed.

=== FILE: filter_bank.dfy ===
/**
 * The bank of One Euro filters (`ensureEuroFilters`, the global `euro`) and
 * the per-frame smoothing the main loop applies to every detected landmark.
 */
module FilterBank {
  import opened Optional
  import opened OneEuro
  import Midline

  /** One filter per axis of one landmark. */
  datatype Channels = Channels(x: Filter, y: Filter, z: Filter)

  /** A landmark as the detector delivers it: `z` and `visibility` may be missing. */
  datatype RawLandmark = RawLandmark(x: real, y: real, z: Option<real>, visibility: Option<real>)

  /** Smoothed landmark together with the channels' next state. */
  datatype SmoothedPoint = SmoothedPoint(next: Channels, landmark: Midline.Landmark)

  /** The pose model's landmark count. */
  const BankSize: nat := 33

  /** Positional axes: minCutoff 2.0, beta 0.3, dCutoff 1.0; depth: 1.0, 0.1, 1.0. */
  predicate IsFresh(c: Channels) {
    && c.x == New(2.0, 0.3, 1.0)
    && c.y == New(2.0, 0.3, 1.0)
    && c.z == New(1.0, 0.1, 1.0)
  }

  predicate ValidChannels(c: Channels) {
    ValidConfig(c.x) && ValidConfig(c.y) && ValidConfig(c.z)
  }

  predicate ValidBank(bank: seq<Channels>) {
    forall i :: 0 <= i < |bank| ==> ValidChannels(bank[i])
  }

  /** No filter of any channel has seen a sample yet. */
  predicate Unstarted(c: Channels) {
    c.x.history.Unprimed? && c.y.history.Unprimed? && c.z.history.Unprimed?
  }

  function FreshChannels(): (c: Channels)
    ensures IsFresh(c) && ValidChannels(c) && Unstarted(c)
  {
    Channels(New(2.0, 0.3, 1.0), New(2.0, 0.3, 1.0), New(1.0, 0.1, 1.0))
  }

  /**
   * `ensureEuroFilters()`: an existing bank is kept as it is (filters are
   * never reset); a missing one is created with 33 fresh filter triples.
   */
  function EnsureEuroFilters(euro: Option<seq<Channels>>): (bank: seq<Channels>)
    ensures euro.Some? ==> bank == euro.value
    ensures euro.None? ==> |bank| == BankSize && forall i :: 0 <= i < |bank| ==> IsFresh(bank[i])
    ensures euro.None? ==> ValidBank(bank)
  {
    match euro
    case Some(existing) => existing
    case None => seq(BankSize, _ => FreshChannels())
  }

  /** Calling `ensureEuroFilters` twice is the same as calling it once. */
  lemma EnsureEuroFiltersIdempotent(euro: Option<seq<Channels>>)
    ensures EnsureEuroFilters(Some(EnsureEuroFilters(euro))) == EnsureEuroFilters(euro)
  {
  }

  /**
   * One element of `raw.map(...)`: each axis goes through its own filter, a
   * missing depth reads as 0 and a missing visibility as 1.
   */
  function SmoothLandmark(pi: real, c: Channels, t: real, p: RawLandmark): (r: SmoothedPoint)
    requires pi > 0.0 && ValidChannels(c)
    ensures ValidChannels(r.next)
    ensures r.next.x.history.Primed? && r.next.x.history.tPrev == t
    ensures r.next.y.history.Primed? && r.next.y.history.tPrev == t
    ensures r.next.z.history.Primed? && r.next.z.history.tPrev == t
    ensures r.next.x == c.x.(history := Primed(t, r.landmark.x, r.next.x.history.dxPrev))
    ensures r.next.y == c.y.(history := Primed(t, r.landmark.y, r.next.y.history.dxPrev))
    ensures r.next.z == c.z.(history := Primed(t, r.landmark.z, r.next.z.history.dxPrev))
    ensures r.landmark.visibility == (if p.visibility.Some? then p.visibility.value else 1.0)
    ensures c.x.history.Unprimed? ==> r.landmark.x == p.x
    ensures c.y.history.Unprimed? ==> r.landmark.y == p.y
    ensures c.z.history.Unprimed? ==> r.landmark.z == (if p.z.Some? then p.z.value else 0.0)
    ensures c.x.history.Primed? ==> Between(r.landmark.x, c.x.history.xPrev, p.x)
    ensures c.y.history.Primed? ==> Between(r.landmark.y, c.y.history.xPrev, p.y)
    ensures c.z.history.Primed? ==> Between(r.landmark.z, c.z.history.xPrev, p.z.Or(0.0))
  {
    var fx := FilterVec(pi, c.x, t, p.x);
    var fy := FilterVec(pi, c.y, t, p.y);
    var fz := FilterVec(pi, c.z, t, p.z.Or(0.0));
    SmoothedPoint(Channels(fx.next, fy.next, fz.next),
                  Midline.Landmark(fx.value, fy.value, fz.value, p.visibility.Or(1.0)))
  }

  /** The filter bank after one frame: triple `i` has seen landmark `i`, the rest are as they were. */
  function SmoothedBank(pi: real, bank: seq<Channels>, t: real, raw: seq<RawLandmark>): (bank': seq<Channels>)
    requires pi > 0.0 && ValidBank(bank) && |raw| <= |bank|
    ensures |bank'| == |bank| && ValidBank(bank')
  {
    seq(|bank|, i requires 0 <= i < |bank| =>
      if i < |raw| then SmoothLandmark(pi, bank[i], t, raw[i]).next else bank[i])
  }

  /** The smoothed frame: landmark `i` filtered by triple `i`. */
  function SmoothedLandmarks(pi: real, bank: seq<Channels>, t: real, raw: seq<RawLandmark>)
      : (smooth: seq<Midline.Landmark>)
    requires pi > 0.0 && ValidBank(bank) && |raw| <= |bank|
    ensures |smooth| == |raw|
  {
    seq(|raw|, i requires 0 <= i < |raw| => SmoothLandmark(pi, bank[i], t, raw[i]).landmark)
  }

  /**
   * `raw.map((p, i) => ...)` with `euro[i]`: landmark `i` goes through filter
   * triple `i`, one after the other; the triples past the end of `raw` keep
   * their state.
   */
  method SmoothFrame(pi: real, bank: seq<Channels>, t: real, raw: seq<RawLandmark>)
      returns (bank': seq<Channels>, smooth: seq<Midline.Landmark>)
    requires pi > 0.0 && ValidBank(bank)
    requires |raw| <= |bank|
    ensures |bank'| == |bank| && |smooth| == |raw|
    ensures ValidBank(bank')
    ensures forall i :: 0 <= i < |raw| ==>
              SmoothedPoint(bank'[i], smooth[i]) == SmoothLandmark(pi, bank[i], t, raw[i])
    ensures forall i :: |raw| <= i < |bank| ==> bank'[i] == bank[i]
    ensures bank' == SmoothedBank(pi, bank, t, raw) && smooth == SmoothedLandmarks(pi, bank, t, raw)
  {
    bank' := bank;
    smooth := [];
    var i := 0;
    while i < |raw|
      invariant 0 <= i <= |raw|
      invariant |bank'| == |bank| && |smooth| == i
      invariant ValidBank(bank')
      invariant forall k :: 0 <= k < i ==>
                  SmoothedPoint(bank'[k], smooth[k]) == SmoothLandmark(pi, bank[k], t, raw[k])
      invariant forall k :: i <= k < |bank| ==> bank'[k] == bank[k]
    {
      var r := SmoothLandmark(pi, bank'[i], t, raw[i]);
      bank' := bank'[i := r.next];
      smooth := smooth + [r.landmark];
      i := i + 1;
    }
  }

  /** On the first detected frame of a fresh bank the output equals the input. */
  lemma FirstFramePassesThrough(pi: real, bank: seq<Channels>, t: real, raw: seq<RawLandmark>, i: nat)
    requires pi > 0.0 && ValidBank(bank) && i < |raw| <= |bank|
    requires Unstarted(bank[i])
    ensures SmoothLandmark(pi, bank[i], t, raw[i]).landmark
         == Midline.Landmark(raw[i].x, raw[i].y, raw[i].z.Or(0.0), raw[i].visibility.Or(1.0))
  {
  }
}

=== FILE: geometry.dfy ===
/**
 * Planar vector helpers of the measurement code: `unit`, `sub`, `dotp` and
 * `ang`. Numbers are exact reals. `Math.acos`, `Math.hypot` and `Math.PI`
 * are not interpreted: they arrive as a `MathLib` value, and `ValidMath`
 * lists the only facts about them the proofs use.
 */
module Geometry {
  import opened RealArith

  datatype Vec = Vec(x: real, y: real)

  /** The browser's `Math.acos`, `Math.hypot` (two arguments) and `Math.PI`. */
  datatype MathLib = MathLib(acos: real -> real, hypot: (real, real) -> real, pi: real)

  /** `acos` maps [-1, 1] into [0, pi] and hits the three textbook values. */
  ghost predicate AcosFacts(m: MathLib) {
    && m.pi > 0.0
    && (forall c :: -1.0 <= c <= 1.0 ==> 0.0 <= m.acos(c) <= m.pi)
    && m.acos(1.0) == 0.0
    && m.acos(0.0) == m.pi / 2.0
    && m.acos(-1.0) == m.pi
  }

  /** `hypot(a, b)` is the non-negative square root of a*a + b*b. */
  ghost predicate HypotFacts(m: MathLib) {
    forall a, b :: 0.0 <= m.hypot(a, b) && m.hypot(a, b) * m.hypot(a, b) == a * a + b * b
  }

  ghost predicate ValidMath(m: MathLib) {
    AcosFacts(m) && HypotFacts(m)
  }

  /** Norms at or below this are treated as zero by `unit`. */
  const NormEps: real := 0.000001

  const Zero: Vec := Vec(0.0, 0.0)

  function Norm(m: MathLib, v: Vec): real {
    m.hypot(v.x, v.y)
  }

  function Neg(v: Vec): Vec {
    Vec(-v.x, -v.y)
  }

  /** `sub(a, b)`: the vector from `b` to `a`. */
  function Sub(a: Vec, b: Vec): (d: Vec)
    ensures d.x + b.x == a.x && d.y + b.y == a.y
  {
    Vec(a.x - b.x, a.y - b.y)
  }

  /** `dotp(a, b)`. */
  function Dot(a: Vec, b: Vec): (d: real)
    ensures a == b ==> d >= 0.0
  {
    a.x * b.x + a.y * b.y
  }

  /** The dot product does not depend on the order of its arguments. */
  lemma DotSymmetric(a: Vec, b: Vec)
    ensures Dot(a, b) == Dot(b, a)
  {
  }

  /** A vector's dot product with itself is its squared `Math.hypot` norm. */
  lemma DotSelfIsNormSquared(m: MathLib, v: Vec)
    requires HypotFacts(m)
    ensures Dot(v, v) == Norm(m, v) * Norm(m, v)
  {
  }

  /** A vector of length one, or the zero vector. */
  ghost predicate UnitOrZero(u: Vec) {
    u == Zero || Dot(u, u) == 1.0
  }

  /**
   * `unit(v)`: the zero vector when the norm is at most 1e-6, otherwise the
   * vector of length one pointing the same way as `v`.
   */
  function Unit(m: MathLib, v: Vec): (u: Vec)
    requires ValidMath(m)
    ensures Norm(m, v) <= NormEps ==> u == Zero
    ensures Norm(m, v) > NormEps ==>
              Dot(u, u) == 1.0 && u.x * Norm(m, v) == v.x && u.y * Norm(m, v) == v.y
    ensures UnitOrZero(u)
  {
    var n := m.hypot(v.x, v.y);
    if n > NormEps then
      ScaledToUnitLength(v.x, v.y, n);
      Vec(v.x / n, v.y / n)
    else
      Zero
  }

  lemma ScaledToUnitLength(x: real, y: real, n: real)
    requires n > 0.0 && n * n == x * x + y * y
    ensures (x / n) * (x / n) + (y / n) * (y / n) == 1.0
  {
    var a, b := x / n, y / n;
    assert a * n == x && b * n == y;
    calc {
      (a * a + b * b) * (n * n);
      (a * n) * (a * n) + (b * n) * (b * n);
      x * x + y * y;
      n * n;
    }
    assert (a * a + b * b - 1.0) * (n * n) == 0.0;
  }

  /** `Math.max(-1, Math.min(1, c))`. */
  function Clamp(c: real): (r: real)
    ensures -1.0 <= r <= 1.0
    ensures -1.0 <= c <= 1.0 ==> r == c
    ensures c > 1.0 ==> r == 1.0
    ensures c < -1.0 ==> r == -1.0
  {
    var hi := if 1.0 < c then 1.0 else c;
    if -1.0 > hi then -1.0 else hi
  }

  function Degrees(m: MathLib, radians: real): real
    requires m.pi > 0.0
  {
    radians * 180.0 / m.pi
  }

  lemma DegreesOfHalfTurn(m: MathLib, radians: real)
    requires m.pi > 0.0 && 0.0 <= radians <= m.pi
    ensures 0.0 <= Degrees(m, radians) <= 180.0
  {
    DivNonNegative(radians * 180.0, m.pi);
    DivMonotone(radians * 180.0, m.pi * 180.0, m.pi);
    ScaleCancels(m.pi, 180.0);
  }

  /** `Math.acos` of the clamped cosine, in degrees: always in [0, 180]. */
  function CosineToDegrees(m: MathLib, cosine: real): (deg: real)
    requires AcosFacts(m)
    ensures 0.0 <= deg <= 180.0
  {
    var c := Clamp(cosine);
    DegreesOfHalfTurn(m, m.acos(c));
    Degrees(m, m.acos(c))
  }

  /**
   * `ang(a, b)`: the angle between `a` and `b` in degrees, from the clamped
   * cosine of their unit vectors; always in [0, 180].
   */
  function Ang(m: MathLib, a: Vec, b: Vec): (deg: real)
    requires ValidMath(m)
    ensures 0.0 <= deg <= 180.0
  {
    CosineToDegrees(m, Dot(Unit(m, a), Unit(m, b)))
  }

  /** The three cosines with textbook angles: 1, 0 and -1. */
  lemma TextbookCosines(m: MathLib)
    requires AcosFacts(m)
    ensures CosineToDegrees(m, 1.0) == 0.0
    ensures CosineToDegrees(m, 0.0) == 90.0
    ensures CosineToDegrees(m, -1.0) == 180.0
  {
    assert Clamp(1.0) == 1.0 && Clamp(0.0) == 0.0 && Clamp(-1.0) == -1.0;
    RightAngleInDegrees(m);
    ScaleCancels(m.pi, 180.0);
  }

  /** Cauchy-Schwarz for vectors of length one or zero. */
  lemma {:induction false} DotOfUnitsBounded(u: Vec, w: Vec)
    requires UnitOrZero(u) && UnitOrZero(w)
    ensures -1.0 <= Dot(u, w) <= 1.0
  {
    if u != Zero && w != Zero {
      var d := Dot(u, w);
      var e := u.x * w.y - u.y * w.x;
      calc {
        d * d + e * e;
        (u.x * u.x + u.y * u.y) * (w.x * w.x + w.y * w.y);
        1.0;
      }
      assert d * d <= 1.0 by { assert e * e >= 0.0; }
      assert (1.0 - d) * (1.0 + d) >= 0.0;
    }
  }

  /** The clamp in `ang` never changes the cosine: it is purely defensive. */
  lemma ClampIsInactive(m: MathLib, a: Vec, b: Vec)
    requires ValidMath(m)
    ensures Clamp(Dot(Unit(m, a), Unit(m, b))) == Dot(Unit(m, a), Unit(m, b))
  {
    DotOfUnitsBounded(Unit(m, a), Unit(m, b));
  }

  lemma AngSymmetric(m: MathLib, a: Vec, b: Vec)
    requires ValidMath(m)
    ensures Ang(m, a, b) == Ang(m, b, a)
  {
  }

  /** A non-degenerate vector makes a zero angle with itself. */
  lemma AngSelfIsZero(m: MathLib, v: Vec)
    requires ValidMath(m) && Norm(m, v) > NormEps
    ensures Ang(m, v, v) == 0.0
  {
  }

  /** The norm depends on the direction's line only, not on its sign. */
  lemma NormOfNeg(m: MathLib, v: Vec)
    requires ValidMath(m)
    ensures Norm(m, Neg(v)) == Norm(m, v)
  {
    var p, q := Norm(m, v), Norm(m, Neg(v));
    assert p >= 0.0 && p * p == v.x * v.x + v.y * v.y;
    assert q >= 0.0 && q * q == (-v.x) * (-v.x) + (-v.y) * (-v.y);
    UniqueSquareRoot(p, q);
  }

  lemma UniqueSquareRoot(p: real, q: real)
    requires p >= 0.0 && q >= 0.0 && p * p == q * q
    ensures p == q
  {
    assert (p - q) * (p + q) == 0.0;
    if p + q != 0.0 {
      assert p - q == ((p - q) * (p + q)) / (p + q);
    }
  }

  /** A non-degenerate vector makes a straight angle with its opposite. */
  lemma AngOppositeIsStraight(m: MathLib, v: Vec)
    requires ValidMath(m) && Norm(m, v) > NormEps
    ensures Ang(m, v, Neg(v)) == 180.0
  {
    NormOfNeg(m, v);
    var n := Norm(m, v);
    var u, w := Unit(m, v), Unit(m, Neg(v));
    assert u == Vec(v.x / n, v.y / n);
    assert w == Vec((-v.x) / n, (-v.y) / n);
    assert w == Neg(u);
    assert Dot(u, w) == -Dot(u, u) == -1.0;
    TextbookCosines(m);
  }

  /**
   * A degenerate reference vector does not yield an undefined angle: its unit
   * vector is zero, the cosine is 0 and the reported angle is 90 degrees.
   */
  lemma AngDegenerateIsRight(m: MathLib, a: Vec, b: Vec)
    requires ValidMath(m) && Norm(m, b) <= NormEps
    ensures Ang(m, a, b) == 90.0
  {
    var u, w := Unit(m, a), Unit(m, b);
    assert w == Zero;
    assert Dot(u, w) == 0.0;
    TextbookCosines(m);
  }

  lemma RightAngleInDegrees(m: MathLib)
    requires m.pi > 0.0
    ensures Degrees(m, m.pi / 2.0) == 90.0
  {
    ScaleCancels(m.pi, 90.0);
    assert m.pi / 2.0 * 180.0 == m.pi * 90.0;
  }
}

=== FILE: midline.dfy ===
/**
 * Body midline and per-hip abduction angle: `bodyMidlineFromLandmarks`,
 * `abductionPerHip2D` and the left/right average the main loop displays and
 * records.
 */
module Midline {
  import opened Geometry

  datatype Point3 = Point3(x: real, y: real, z: real) {
    /** The image-plane part; `sub` reads only `x` and `y`. */
    function Planar(): Vec {
      Vec(x, y)
    }
  }

  /** A smoothed landmark as the main loop builds it. */
  datatype Landmark = Landmark(x: real, y: real, z: real, visibility: real) {
    function Position(): Point3 {
      Point3(x, y, z)
    }
    function Planar(): Vec {
      Vec(x, y)
    }
  }

  /** The six landmarks the measurement uses (the object `L`). */
  datatype Joints = Joints(
    leftShoulder: Landmark, rightShoulder: Landmark,
    leftHip: Landmark, rightHip: Landmark,
    leftKnee: Landmark, rightKnee: Landmark)

  /** `S_mid`, `H_mid` and `midDown`. */
  datatype Line = Line(sMid: Point3, hMid: Point3, midDown: Vec)

  /** `{abdL, abdR}` and `avg`. */
  datatype Angles = Angles(left: real, right: real, average: real)

  /** The same body seen with left and right exchanged. */
  function Mirror(j: Joints): Joints {
    Joints(j.rightShoulder, j.leftShoulder, j.rightHip, j.leftHip, j.rightKnee, j.leftKnee)
  }

  /** The componentwise mean of two points. */
  function MidPoint(a: Point3, b: Point3): (c: Point3)
    ensures c.x - a.x == b.x - c.x && c.y - a.y == b.y - c.y && c.z - a.z == b.z - c.z
  {
    Point3((a.x + b.x) / 2.0, (a.y + b.y) / 2.0, (a.z + b.z) / 2.0)
  }

  /**
   * `bodyMidlineFromLandmarks(L)`: the shoulder and hip midpoints and the
   * normalised planar direction from the hip midpoint to the shoulder
   * midpoint (zero when the two nearly coincide).
   */
  function BodyMidline(m: MathLib, j: Joints): (l: Line)
    requires ValidMath(m)
    ensures l.sMid == MidPoint(j.leftShoulder.Position(), j.rightShoulder.Position())
    ensures l.hMid == MidPoint(j.leftHip.Position(), j.rightHip.Position())
    ensures UnitOrZero(l.midDown)
    ensures var axis := Sub(l.sMid.Planar(), l.hMid.Planar());
            Norm(m, axis) > NormEps ==>
              l.midDown.x * Norm(m, axis) == axis.x && l.midDown.y * Norm(m, axis) == axis.y
    ensures var axis := Sub(l.sMid.Planar(), l.hMid.Planar());
            Norm(m, axis) <= NormEps ==> l.midDown == Zero
  {
    var sMid := MidPoint(j.leftShoulder.Position(), j.rightShoulder.Position());
    var hMid := MidPoint(j.leftHip.Position(), j.rightHip.Position());
    Line(sMid, hMid, Unit(m, Sub(sMid.Planar(), hMid.Planar())))
  }

  /**
   * `abductionPerHip2D(HIP, KNEE, midDown)`: the angle between the thigh
   * (hip to knee) and the midline, with the source's `a > 180` fold.
   */
  function AbductionPerHip2D(m: MathLib, hip: Landmark, knee: Landmark, midDown: Vec): (a: real)
    requires ValidMath(m)
    ensures 0.0 <= a <= 180.0
    ensures a == Ang(m, Sub(knee.Planar(), hip.Planar()), midDown)
  {
    var a := Ang(m, Sub(knee.Planar(), hip.Planar()), midDown);
    if a > 180.0 then 360.0 - a else a
  }

  /** The arithmetic mean shown as the average angle. */
  function Average(left: real, right: real): (avg: real)
    ensures avg - left == right - avg
  {
    (left + right) / 2.0
  }

  /** The three angles the main loop computes for one frame. */
  function FrameAngles(m: MathLib, j: Joints): (r: Angles)
    requires ValidMath(m)
    ensures 0.0 <= r.left <= 180.0 && 0.0 <= r.right <= 180.0
    ensures 0.0 <= r.average <= 180.0
    ensures r.average == Average(r.left, r.right)
  {
    var line := BodyMidline(m, j);
    var left := AbductionPerHip2D(m, j.leftHip, j.leftKnee, line.midDown);
    var right := AbductionPerHip2D(m, j.rightHip, j.rightKnee, line.midDown);
    Angles(left, right, Average(left, right))
  }

  /** Exchanging left and right leaves the midline unchanged. */
  lemma MirrorKeepsMidline(m: MathLib, j: Joints)
    requires ValidMath(m)
    ensures BodyMidline(m, Mirror(j)) == BodyMidline(m, j)
  {
  }

  /**
   * Exchanging left and right exchanges the two hip angles and leaves the
   * average unchanged.
   */
  lemma MirrorSwapsAngles(m: MathLib, j: Joints)
    requires ValidMath(m)
    ensures FrameAngles(m, Mirror(j)).left == FrameAngles(m, j).right
    ensures FrameAngles(m, Mirror(j)).right == FrameAngles(m, j).left
    ensures FrameAngles(m, Mirror(j)).average == FrameAngles(m, j).average
  {
  }

  /**
   * When shoulders and hips nearly coincide in the image plane the midline is
   * the zero vector and both hips read 90 degrees rather than "undefined".
   */
  lemma DegenerateMidlineReadsRightAngles(m: MathLib, j: Joints)
    requires ValidMath(m)
    requires Norm(m, Sub(BodyMidline(m, j).sMid.Planar(), BodyMidline(m, j).hMid.Planar())) <= NormEps
    ensures FrameAngles(m, j) == Angles(90.0, 90.0, 90.0)
  {
    var line := BodyMidline(m, j);
    assert line.midDown == Zero;
    AngDegenerateIsRight(m, Sub(j.leftKnee.Planar(), j.leftHip.Planar()), line.midDown);
    AngDegenerateIsRight(m, Sub(j.rightKnee.Planar(), j.rightHip.Planar()), line.midDown);
  }
}

=== FILE: one_euro.dfy ===
/**
 * The One Euro adaptive low-pass filter (`class OneEuro`): an immutable
 * filter value whose history is `Unprimed` until the first sample, and a
 * step function `FilterVec` returning the next filter and the output.
 * `Math.PI` is the parameter `pi`.
 */
module OneEuro {
  import opened RealArith

  /** `tPrev`, `xPrev`, `dxPrev`: all null before the first call. */
  datatype History = Unprimed | Primed(tPrev: real, xPrev: real, dxPrev: real)

  datatype Filter = Filter(minCutoff: real, beta: real, dCutoff: real, history: History)

  /** The filter's output together with its next state. */
  datatype Filtered = Filtered(next: Filter, value: real)

  /** One timestamped input (milliseconds, raw value). */
  datatype Input = Input(t: real, x: real)

  /** The outputs of a run together with the filter it ends in. */
  datatype Trace = Trace(last: Filter, outputs: seq<real>)

  /** Seconds below which the step between two samples is clamped. */
  const MinDt: real := 0.000001

  /** Cutoffs are positive and the speed coefficient is non-negative. */
  predicate ValidConfig(f: Filter) {
    f.minCutoff > 0.0 && f.beta >= 0.0 && f.dCutoff > 0.0
  }

  /** `new OneEuro({minCutoff, beta, dCutoff})`. */
  function New(minCutoff: real, beta: real, dCutoff: real): (f: Filter)
    ensures f.history.Unprimed?
    ensures f.minCutoff == minCutoff && f.beta == beta && f.dCutoff == dCutoff
  {
    Filter(minCutoff, beta, dCutoff, Unprimed)
  }

  function Min(a: real, b: real): real {
    if a <= b then a else b
  }

  function Max(a: real, b: real): real {
    if a <= b then b else a
  }

  /** `v` lies in the closed interval spanned by `a` and `b`. */
  predicate Between(v: real, a: real, b: real) {
    Min(a, b) <= v <= Max(a, b)
  }

  /** `v` lies in the open interval spanned by `a` and `b`. */
  predicate StrictlyBetween(v: real, a: real, b: real) {
    Min(a, b) < v < Max(a, b)
  }

  /** `OneEuro.alpha(dt, cutoff)`: the smoothing factor, strictly in (0, 1). */
  function Alpha(pi: real, dt: real, cutoff: real): (a: real)
    requires pi > 0.0 && dt > 0.0 && cutoff > 0.0
    ensures 0.0 < a < 1.0
  {
    var tau := 1.0 / (2.0 * pi * cutoff);
    MulPositive(2.0 * pi, cutoff);
    DivPositive(1.0, 2.0 * pi * cutoff);
    DivPositive(tau, dt);
    DivPositive(1.0, 1.0 + tau / dt);
    ReciprocalStrictlyAntitone(1.0, 1.0 + tau / dt);
    1.0 / (1.0 + tau / dt)
  }

  /** `Math.max(1e-6, (t - tPrev) / 1000)`: the elapsed seconds, never below 1e-6. */
  function Dt(t: real, tPrev: real): (dt: real)
    ensures dt >= MinDt && dt >= (t - tPrev) / 1000.0
    ensures dt == MinDt || dt == (t - tPrev) / 1000.0
  {
    Max(MinDt, (t - tPrev) / 1000.0)
  }

  /** `a * x + (1 - a) * prev`. */
  function Blend(a: real, x: real, prev: real): (r: real)
    requires 0.0 < a < 1.0
    ensures Between(r, prev, x)
    ensures x != prev ==> StrictlyBetween(r, prev, x)
    ensures x == prev ==> r == x
    ensures x - r == (1.0 - a) * (x - prev)
  {
    BlendBounds(a, x, prev);
    BlendGap(a, 1.0 - a, x, prev);
    a * x + (1.0 - a) * prev
  }

  /**
   * The blend sits strictly between its two ends, or on them when they
   * meet: each end gets a positive share when `0 < a < 1`.
   */
  lemma BlendBounds(a: real, x: real, prev: real)
    requires 0.0 < a < 1.0
    ensures Between(a * x + (1.0 - a) * prev, prev, x)
    ensures x != prev ==> StrictlyBetween(a * x + (1.0 - a) * prev, prev, x)
    ensures x == prev ==> a * x + (1.0 - a) * prev == x
  {
    var r := a * x + (1.0 - a) * prev;
    if x > prev {
      BlendAboveLow(1.0 - a, a, prev, x);
      BlendBelowHigh(a, 1.0 - a, x, prev);
    } else if x < prev {
      BlendAboveLow(a, 1.0 - a, x, prev);
      BlendBelowHigh(1.0 - a, a, prev, x);
    } else {
      OneMinus(a, x);
    }
    OrderedIsBetween(r, prev, x);
  }

  lemma OrderedIsBetween(r: real, prev: real, x: real)
    requires (x > prev ==> prev < r < x) && (x < prev ==> x < r < prev) && (x == prev ==> r == x)
    ensures Between(r, prev, x)
    ensures x != prev ==> StrictlyBetween(r, prev, x)
    ensures x == prev ==> r == x
  {
  }

  /** A positive share `a` of the higher end lifts the blend above the lower one. */
  lemma BlendAboveLow(b: real, a: real, lo: real, hi: real)
    requires 0.0 < a && a + b == 1.0 && lo < hi
    ensures b * lo + a * hi > lo
  {
    MulPositive(a, hi - lo);
  }

  /** A positive share `b` of the lower end keeps the blend below the higher one. */
  lemma BlendBelowHigh(a: real, b: real, hi: real, lo: real)
    requires 0.0 < b && a + b == 1.0 && lo < hi
    ensures a * hi + b * lo < hi
  {
    MulPositive(b, hi - lo);
  }

  function Abs(v: real): (r: real)
    ensures r >= 0.0 && (r == v || r == -v)
  {
    if v < 0.0 then -v else v
  }

  /** `minCutoff + beta * |dxHat|`: never below `minCutoff` when `beta >= 0`. */
  function Cutoff(f: Filter, dxHat: real): (c: real)
    requires ValidConfig(f)
    ensures c >= f.minCutoff > 0.0
  {
    MulNonNegative(f.beta, Abs(dxHat));
    f.minCutoff + f.beta * Abs(dxHat)
  }

  /**
   * `filterVec(t, x)`. The first call returns `x` and records it with a zero
   * derivative; every later call returns a blend of the previous output and
   * `x`, and records `(t, output, smoothed derivative)`.
   */
  function FilterVec(pi: real, f: Filter, t: real, x: real): (r: Filtered)
    requires pi > 0.0 && ValidConfig(f)
    ensures r.next.minCutoff == f.minCutoff && r.next.beta == f.beta && r.next.dCutoff == f.dCutoff
    ensures r.next.history.Primed? && r.next.history.tPrev == t && r.next.history.xPrev == r.value
    ensures f.history.Unprimed? ==> r.value == x && r.next.history.dxPrev == 0.0
    ensures f.history.Primed? ==> Between(r.value, f.history.xPrev, x)
    ensures f.history.Primed? && x != f.history.xPrev ==> StrictlyBetween(r.value, f.history.xPrev, x)
    ensures f.history.Primed? ==>
              Between(r.next.history.dxPrev, f.history.dxPrev,
                      (x - f.history.xPrev) / Dt(t, f.history.tPrev))
    ensures f.history.Primed? ==>
              x - r.value == (1.0 - Alpha(pi, Dt(t, f.history.tPrev), Cutoff(f, r.next.history.dxPrev)))
                             * (x - f.history.xPrev)
  {
    match f.history
    case Unprimed =>
      Filtered(f.(history := Primed(t, x, 0.0)), x)
    case Primed(tPrev, xPrev, dxPrev) =>
      var dt := Dt(t, tPrev);
      var dx := (x - xPrev) / dt;
      var dxHat := Blend(Alpha(pi, dt, f.dCutoff), dx, dxPrev);
      var xHat := Blend(Alpha(pi, dt, Cutoff(f, dxHat)), x, xPrev);
      Filtered(f.(history := Primed(t, xHat, dxHat)), xHat)
  }

  /** Feeds `inputs` to the filter in order. */
  function Run(pi: real, f: Filter, inputs: seq<Input>): (tr: Trace)
    requires pi > 0.0 && ValidConfig(f)
    ensures |tr.outputs| == |inputs|
    ensures ValidConfig(tr.last)
    ensures tr.last.minCutoff == f.minCutoff && tr.last.beta == f.beta && tr.last.dCutoff == f.dCutoff
    ensures |inputs| > 0 ==> tr.last.history.Primed? && tr.last.history.tPrev == inputs[|inputs| - 1].t
    decreases |inputs|
  {
    if |inputs| == 0 then
      Trace(f, [])
    else
      var r := FilterVec(pi, f, inputs[0].t, inputs[0].x);
      var rest := Run(pi, r.next, inputs[1..]);
      Trace(rest.last, [r.value] + rest.outputs)
  }

  /** Every input lies in [lo, hi]. */
  ghost predicate InputsWithin(inputs: seq<Input>, lo: real, hi: real) {
    forall i :: 0 <= i < |inputs| ==> lo <= inputs[i].x <= hi
  }

  /** The filter has not started, or its last output lies in [lo, hi]. */
  ghost predicate HistoryWithin(f: Filter, lo: real, hi: real) {
    f.history.Primed? ==> lo <= f.history.xPrev <= hi
  }

  /**
   * No overshoot: when every input lies in [lo, hi] (and so does the
   * previous output, if any), every output lies in [lo, hi].
   */
  lemma {:induction false} RunStaysWithin(pi: real, f: Filter, inputs: seq<Input>, lo: real, hi: real)
    requires pi > 0.0 && ValidConfig(f)
    requires InputsWithin(inputs, lo, hi) && HistoryWithin(f, lo, hi)
    ensures forall i :: 0 <= i < |inputs| ==> lo <= Run(pi, f, inputs).outputs[i] <= hi
    ensures HistoryWithin(Run(pi, f, inputs).last, lo, hi)
    decreases |inputs|
  {
    if |inputs| > 0 {
      var r := FilterVec(pi, f, inputs[0].t, inputs[0].x);
      assert lo <= r.value <= hi;
      assert InputsWithin(inputs[1..], lo, hi) by {
        forall i | 0 <= i < |inputs[1..]|
          ensures lo <= inputs[1..][i].x <= hi
        {
          assert inputs[1..][i] == inputs[i + 1];
        }
      }
      RunStaysWithin(pi, r.next, inputs[1..], lo, hi);
      var rest := Run(pi, r.next, inputs[1..]);
      assert Run(pi, f, inputs).outputs == [r.value] + rest.outputs;
      forall i | 0 <= i < |inputs|
        ensures lo <= Run(pi, f, inputs).outputs[i] <= hi
      {
        if i > 0 {
          assert Run(pi, f, inputs).outputs[i] == rest.outputs[i - 1];
        }
      }
    }
  }

  /** A constant signal passes through unchanged once the filter holds it. */
  lemma ConstantSignalIsFixed(pi: real, f: Filter, inputs: seq<Input>, c: real)
    requires pi > 0.0 && ValidConfig(f)
    requires forall i :: 0 <= i < |inputs| ==> inputs[i].x == c
    requires f.history.Primed? ==> f.history.xPrev == c
    ensures forall i :: 0 <= i < |inputs| ==> Run(pi, f, inputs).outputs[i] == c
  {
    RunStaysWithin(pi, f, inputs, c, c);
  }

  /**
   * A larger cutoff gives a larger smoothing factor: faster motion makes the
   * filter follow the input more closely.
   */
  lemma AlphaGrowsWithCutoff(pi: real, dt: real, c1: real, c2: real)
    requires pi > 0.0 && dt > 0.0 && 0.0 < c1 <= c2
    ensures Alpha(pi, dt, c1) <= Alpha(pi, dt, c2)
  {
    var k1, k2 := 2.0 * pi * c1, 2.0 * pi * c2;
    MulPositive(2.0 * pi, c1);
    MulMonotone(2.0 * pi, c1, c2);
    ReciprocalAntitone(k1, k2);
    var t1, t2 := 1.0 / k1, 1.0 / k2;
    DivPositive(1.0, k2);
    DivMonotone(t2, t1, dt);
    DivPositive(t2, dt);
    ReciprocalAntitone(1.0 + t2 / dt, 1.0 + t1 / dt);
  }

  /** Scaling by a non-negative factor scales the magnitude. */
  lemma AbsScale(k: real, d: real)
    requires k >= 0.0
    ensures Abs(k * d) == k * Abs(d)
  {
    if d < 0.0 {
      MulMonotone(k, d, 0.0);
    } else {
      MulNonNegative(k, d);
    }
  }

  /** Same parameters and a larger derivative magnitude give a cutoff no lower. */
  lemma CutoffGrowsWithSpeed(f: Filter, g: Filter, d1: real, d2: real)
    requires ValidConfig(f) && ValidConfig(g)
    requires g.minCutoff == f.minCutoff && g.beta == f.beta && Abs(d1) <= Abs(d2)
    ensures Cutoff(f, d1) <= Cutoff(g, d2)
  {
    MulMonotone(f.beta, Abs(d1), Abs(d2));
  }

  /**
   * A started filter keeps the share `k = 1 - alpha` of the gap between its
   * previous output and the input, with `alpha` taken at the adaptive cutoff.
   */
  lemma LagShare(pi: real, f: Filter, t: real, x: real) returns (k: real, gap: real)
    requires pi > 0.0 && ValidConfig(f) && f.history.Primed?
    ensures k == 1.0 - Alpha(pi, Dt(t, f.history.tPrev), Cutoff(f, FilterVec(pi, f, t, x).next.history.dxPrev))
    ensures 0.0 < k < 1.0 && gap == x - f.history.xPrev
    ensures x - FilterVec(pi, f, t, x).value == k * gap
  {
    k := 1.0 - Alpha(pi, Dt(t, f.history.tPrev), Cutoff(f, FilterVec(pi, f, t, x).next.history.dxPrev));
    gap := x - f.history.xPrev;
  }

  /** Of two shares of the same gap, the smaller one is no larger in magnitude. */
  lemma SmallerShareIsCloser(ks: real, kf: real, gs: real, gf: real, ls: real, lf: real)
    requires 0.0 <= kf <= ks && gs == gf
    requires ls == ks * gs && lf == kf * gf
    ensures Abs(lf) <= Abs(ls)
  {
    AbsScale(ks, gs);
    AbsScale(kf, gs);
    MulMonotone(Abs(gs), kf, ks);
  }

  /**
   * The speed adaptation: two started filters that differ only in their
   * smoothed derivative, fed the same sample, and the one whose new
   * derivative estimate is larger in magnitude ends no farther from the
   * input. Faster motion is followed more closely.
   */
  lemma FasterMotionLagsLess(pi: real, slow: Filter, fast: Filter, t: real, x: real)
    requires pi > 0.0 && ValidConfig(slow) && ValidConfig(fast)
    requires slow.history.Primed? && fast.history.Primed?
    requires fast.minCutoff == slow.minCutoff && fast.beta == slow.beta && fast.dCutoff == slow.dCutoff
    requires fast.history.tPrev == slow.history.tPrev && fast.history.xPrev == slow.history.xPrev
    requires Abs(FilterVec(pi, slow, t, x).next.history.dxPrev) <= Abs(FilterVec(pi, fast, t, x).next.history.dxPrev)
    ensures Abs(x - FilterVec(pi, fast, t, x).value) <= Abs(x - FilterVec(pi, slow, t, x).value)
  {
    var rs, rf := FilterVec(pi, slow, t, x), FilterVec(pi, fast, t, x);
    var ks, gs := LagShare(pi, slow, t, x);
    var kf, gf := LagShare(pi, fast, t, x);
    var cs, cf := Cutoff(slow, rs.next.history.dxPrev), Cutoff(fast, rf.next.history.dxPrev);
    CutoffGrowsWithSpeed(slow, fast, rs.next.history.dxPrev, rf.next.history.dxPrev);
    AlphaGrowsWithCutoff(pi, Dt(t, slow.history.tPrev), cs, cf);
    SmallerShareIsCloser(ks, kf, gs, gf, x - rs.value, x - rf.value);
  }

  /** The two-sample case: 0.50 at 0 ms then 0.54 at 16.7 ms gives an output strictly in between. */
  lemma SecondSampleIsStrictlyBetween(pi: real)
    requires pi > 0.0
    ensures var f1 := FilterVec(pi, New(2.0, 0.3, 1.0), 0.0, 0.50).next;
            0.50 < FilterVec(pi, f1, 16.7, 0.54).value < 0.54
  {
  }
}

=== FILE: optional.dfy ===
/** A value that may be absent: JavaScript's `null` / `undefined`. */
module Optional {

  datatype Option<+T> = None | Some(value: T) {

    /** The value, or `fallback` when absent: the `??` operator. */
    function Or(fallback: T): T {
      match this
      case Some(v) => v
      case None => fallback
    }
  }
}

=== FILE: patient_code.dfy ===
/**
 * The patient-code check of `askPatientCode`: the pattern
 * `^[A-Za-z0-9_-]{1,10}$`, and the prompt loop that repeats until the
 * operator types an acceptable code or cancels.
 */
module PatientCode {
  import opened Optional

  const MaxCodeLength: nat := 10

  /** One character of the class `[A-Za-z0-9_-]`. */
  predicate IsCodeChar(c: char) {
    ('A' <= c <= 'Z') || ('a' <= c <= 'z') || ('0' <= c <= '9') || c == '_' || c == '-'
  }

  /** The whole string matches `^[A-Za-z0-9_-]{1,10}$`. */
  predicate ValidCode(s: string) {
    1 <= |s| <= MaxCodeLength && forall i :: 0 <= i < |s| ==> IsCodeChar(s[i])
  }

  /** The regular-expression test, as a left-to-right scan. */
  method MatchesCodePattern(s: string) returns (ok: bool)
    ensures ok <==> ValidCode(s)
  {
    if |s| < 1 || |s| > MaxCodeLength {
      return false;
    }
    var i := 0;
    while i < |s|
      invariant 0 <= i <= |s|
      invariant forall k :: 0 <= k < i ==> IsCodeChar(s[k])
    {
      if !IsCodeChar(s[i]) {
        return false;
      }
      i := i + 1;
    }
    return true;
  }

  /** What the prompt loop has come to after the answers given so far. */
  datatype Prompted = Entered(code: string) | Cancelled | StillAsking

  /** An answer the loop rejects with an alert and asks again. */
  predicate Rejected(answer: Option<string>) {
    answer.Some? && !ValidCode(answer.value)
  }

  /**
   * `askPatientCode()` over the operator's successive answers to `prompt`
   * (`None` is the Cancel button): the first acceptable code is taken, a
   * cancel ends the loop without a code, and anything else is asked again.
   */
  function AskPatientCode(answers: seq<Option<string>>): (r: Prompted)
    ensures r.Entered? ==> ValidCode(r.code) && Some(r.code) in answers
    ensures r.Cancelled? ==> None in answers
    ensures r.StillAsking? ==> forall i :: 0 <= i < |answers| ==> Rejected(answers[i])
    decreases |answers|
  {
    if |answers| == 0 then
      StillAsking
    else
      match answers[0]
      case None => Cancelled
      case Some(text) =>
        if ValidCode(text) then Entered(text) else AskPatientCode(answers[1..])
  }

  /**
   * The loop yields `code` exactly when some answer is `code`, `code` is
   * acceptable, and every earlier answer was typed and rejected.
   */
  lemma {:induction false} EnteredIffFirstAcceptable(answers: seq<Option<string>>, code: string)
    ensures AskPatientCode(answers) == Entered(code) <==>
              exists i :: 0 <= i < |answers| && answers[i] == Some(code) && ValidCode(code)
                          && forall k :: 0 <= k < i ==> Rejected(answers[k])
    decreases |answers|
  {
    if |answers| > 0 {
      EnteredIffFirstAcceptable(answers[1..], code);
      if AskPatientCode(answers) == Entered(code) {
        if answers[0] == Some(code) {
          assert 0 < |answers| && answers[0] == Some(code) && ValidCode(code);
        } else {
          var i :| 0 <= i < |answers[1..]| && answers[1..][i] == Some(code) && ValidCode(code)
                   && forall k :: 0 <= k < i ==> Rejected(answers[1..][k]);
          assert answers[i + 1] == Some(code);
          forall k | 0 <= k < i + 1
            ensures Rejected(answers[k])
          {
            if k > 0 {
              assert answers[k] == answers[1..][k - 1];
            }
          }
        }
      }
      if exists i :: 0 <= i < |answers| && answers[i] == Some(code) && ValidCode(code)
                     && forall k :: 0 <= k < i ==> Rejected(answers[k]) {
        var i :| 0 <= i < |answers| && answers[i] == Some(code) && ValidCode(code)
                 && forall k :: 0 <= k < i ==> Rejected(answers[k]);
        if i > 0 {
          assert Rejected(answers[0]);
          assert answers[1..][i - 1] == Some(code);
          forall k | 0 <= k < i - 1
            ensures Rejected(answers[1..][k])
          {
            assert answers[1..][k] == answers[k + 1];
          }
        }
      }
    }
  }

  /**
   * The loop ends without a code exactly when the operator cancels before
   * typing an acceptable code.
   */
  lemma {:induction false} CancelledIffCancelFirst(answers: seq<Option<string>>)
    ensures AskPatientCode(answers) == Cancelled <==>
              exists i :: 0 <= i < |answers| && answers[i] == None
                          && forall k :: 0 <= k < i ==> Rejected(answers[k])
    decreases |answers|
  {
    if |answers| > 0 {
      CancelledIffCancelFirst(answers[1..]);
      if AskPatientCode(answers) == Cancelled && answers[0] != None {
        var i :| 0 <= i < |answers[1..]| && answers[1..][i] == None
                 && forall k :: 0 <= k < i ==> Rejected(answers[1..][k]);
        assert answers[i + 1] == None;
        forall k | 0 <= k < i + 1
          ensures Rejected(answers[k])
        {
          if k > 0 {
            assert answers[k] == answers[1..][k - 1];
          }
        }
      }
      if exists i :: 0 <= i < |answers| && answers[i] == None
                     && forall k :: 0 <= k < i ==> Rejected(answers[k]) {
        var i :| 0 <= i < |answers| && answers[i] == None
                 && forall k :: 0 <= k < i ==> Rejected(answers[k]);
        if i > 0 {
          assert Rejected(answers[0]);
          assert answers[1..][i - 1] == None;
          forall k | 0 <= k < i - 1
            ensures Rejected(answers[1..][k])
          {
            assert answers[1..][k] == answers[k + 1];
          }
        }
      }
    }
  }
}

=== FILE: real_arith.dfy ===
/**
 * Small facts about products and quotients of reals. Each is stated alone so
 * that the solver meets it without the surrounding model in scope.
 */
module RealArith {

  lemma MulPositive(u: real, v: real)
    requires u > 0.0 && v > 0.0
    ensures u * v > 0.0
  {
  }

  lemma MulNonNegative(u: real, v: real)
    requires u >= 0.0 && v >= 0.0
    ensures u * v >= 0.0
  {
  }

  /** Multiplying by a non-negative factor keeps the order. */
  lemma MulMonotone(k: real, u: real, v: real)
    requires k >= 0.0 && u <= v
    ensures k * u <= k * v
  {
  }

  lemma DivPositive(a: real, k: real)
    requires a > 0.0 && k > 0.0
    ensures a / k > 0.0
  {
  }

  /** Dividing by a positive number keeps the order. */
  lemma DivMonotone(u: real, v: real, k: real)
    requires u <= v && k > 0.0
    ensures u / k <= v / k
  {
  }

  /** Taking reciprocals of positive numbers reverses the order. */
  lemma ReciprocalAntitone(u: real, v: real)
    requires 0.0 < u <= v
    ensures 1.0 / v <= 1.0 / u
  {
  }

  /** Strict version of `ReciprocalAntitone`. */
  lemma ReciprocalStrictlyAntitone(u: real, v: real)
    requires 0.0 < u < v
    ensures 1.0 / v < 1.0 / u
  {
  }

  lemma DivNonNegative(a: real, k: real)
    requires a >= 0.0 && k > 0.0
    ensures a / k >= 0.0
  {
  }

  /** Scaling by `p` and dividing by `p` cancel. */
  lemma ScaleCancels(p: real, k: real)
    requires p > 0.0
    ensures p * k / p == k
  {
  }

  lemma OneMinus(a: real, x: real)
    ensures (1.0 - a) * x == x - a * x
  {
  }

  /** What a blend with shares `a` and `b` leaves of the gap from `p` to `x`. */
  lemma BlendGap(a: real, b: real, x: real, p: real)
    requires a + b == 1.0
    ensures x - (a * x + b * p) == b * (x - p)
  {
  }
}

=== FILE: recorder.dfy ===
/**
 * The recording logic of the page: `startRecording` with its 20 ms
 * countdown, and the main loop's per-frame pipeline (filter bank, midline,
 * angles) ending in the 20 ms sample gate. Timers and animation frames are
 * replaced by explicit events.
 */
module Recorder {
  import opened Optional
  import opened Geometry
  import opened Midline
  import opened FilterBank
  import PatientCode

  /** `SAMPLE_MS`: the countdown step and the minimum gap between samples. */
  const SampleMs: nat := 20
  /** The countdown stops once this many milliseconds have elapsed. */
  const RecordingMs: nat := 2000

  /** Pose landmark indices (`LM`). */
  const LeftShoulder: nat := 11
  const RightShoulder: nat := 12
  const LeftHip: nat := 23
  const RightHip: nat := 24
  const LeftKnee: nat := 25
  const RightKnee: nat := 26

  /** One entry of `collectedData`, before decimal rounding. */
  datatype Sample = Sample(
    patientCode: Option<string>, timestamp: real,
    avgAngle: real, leftAngle: real, rightAngle: real,
    sMid: Point3, hMid: Point3,
    leftHip: Landmark, rightHip: Landmark, leftKnee: Landmark, rightKnee: Landmark)

  /** The `setInterval` countdown of `startRecording`. */
  datatype Countdown = Idle | Running(elapsed: nat)

  /** The page's module-level state that the measurement touches. */
  datatype App = App(
    patientCode: Option<string>, euro: Option<seq<Channels>>,
    recording: bool, collected: seq<Sample>, lastSampleTime: real,
    countdown: Countdown)

  /** The state after a countdown tick, with the progress bar width in percent. */
  datatype Ticked = Ticked(app: App, bar: real)

  /** Something that happens to the page. */
  datatype Event =
    | Start(answers: seq<Option<string>>)   // the start button, with the prompt answers
    | Tick                                  // the countdown interval fires
    | Load(hasFile: bool, answers: seq<Option<string>>)  // the load button, with the prompt answers
    | Frame(tNow: real, detection: Option<seq<RawLandmark>>)  // a new video frame

  const Initial: App := App(None, None, false, [], 0.0, Idle)

  /** `patientCode` is truthy: present and not empty. */
  predicate HasCode(app: App) {
    app.patientCode.Some? && app.patientCode.value != ""
  }

  /** Consecutive samples are at least `SAMPLE_MS` apart. */
  ghost predicate SamplesSpaced(s: seq<Sample>) {
    forall i :: 0 < i < |s| ==> s[i - 1].timestamp + SampleMs as real <= s[i].timestamp
  }

  /** A sample carries the session's code and in-range angles with their mean. */
  ghost predicate WellFormed(s: Sample, code: Option<string>) {
    && s.patientCode == code
    && 0.0 <= s.leftAngle <= 180.0
    && 0.0 <= s.rightAngle <= 180.0
    && s.avgAngle == Average(s.leftAngle, s.rightAngle)
  }

  /** What every reachable state satisfies. */
  ghost predicate Invariant(app: App) {
    && (app.euro.Some? ==> |app.euro.value| == BankSize && ValidBank(app.euro.value))
    && (app.patientCode.Some? ==> PatientCode.ValidCode(app.patientCode.value))
    && (app.recording <==> app.countdown.Running?)
    && (app.recording ==> app.patientCode.Some?)
    && (app.countdown.Running? ==>
          app.countdown.elapsed < RecordingMs && app.countdown.elapsed % SampleMs == 0)
    && SamplesSpaced(app.collected)
    && (|app.collected| > 0 ==> app.collected[|app.collected| - 1].timestamp == app.lastSampleTime)
    && (|app.collected| > 0 ==> app.patientCode.Some?)
    && forall i :: 0 <= i < |app.collected| ==> WellFormed(app.collected[i], app.patientCode)
  }

  lemma InitialInvariant()
    ensures Invariant(Initial)
  {
  }

  /**
   * `startRecording()` (the start button is disabled while a countdown
   * runs). Without a code it first runs the prompt loop; when that gives no
   * code nothing changes. Otherwise the collected data is cleared, recording
   * begins and the countdown starts from zero.
   */
  function StartRecording(app: App, answers: seq<Option<string>>): (r: App)
    requires app.countdown.Idle?
    ensures var started := HasCode(app) || PatientCode.AskPatientCode(answers).Entered?;
            && (started ==> r.recording && r.collected == [] && r.countdown == Running(0))
            && (!started ==> r == app)
    ensures HasCode(app) ==> r.patientCode == app.patientCode
    ensures !HasCode(app) && PatientCode.AskPatientCode(answers).Entered? ==>
              r.patientCode == Some(PatientCode.AskPatientCode(answers).code)
    ensures r.euro == app.euro && r.lastSampleTime == app.lastSampleTime
  {
    var code :=
      if HasCode(app) then app.patientCode
      else match PatientCode.AskPatientCode(answers)
        case Entered(c) => Some(c)
        case _ => None;
    if code.None? then app
    else app.(patientCode := code, collected := [], recording := true, countdown := Running(0))
  }

  /**
   * The load button's handler up to the point where the video starts: with
   * no file chosen nothing happens; without a code the prompt loop runs and
   * may set one. Collection state and the countdown are not touched.
   */
  function LoadVideo(app: App, hasFile: bool, answers: seq<Option<string>>): (r: App)
    ensures r == app.(patientCode := r.patientCode)
    ensures r.patientCode != app.patientCode ==>
              && hasFile && !HasCode(app)
              && r.patientCode.Some? && PatientCode.ValidCode(r.patientCode.value)
              && Some(r.patientCode.value) in answers
    ensures hasFile && !HasCode(app) && PatientCode.AskPatientCode(answers).Entered? ==> HasCode(r)
    ensures !hasFile || HasCode(app) ==> r == app
    ensures hasFile && !HasCode(app) ==>
              match PatientCode.AskPatientCode(answers)
              case Entered(c) => r == app.(patientCode := Some(c))
              case _ => r == app
  {
    if !hasFile || HasCode(app) then app
    else match PatientCode.AskPatientCode(answers)
      case Entered(c) => app.(patientCode := Some(c))
      case _ => app
  }

  /** Loading a video keeps the invariant: a code is only set while none is held. */
  lemma LoadVideoPreservesInvariant(app: App, hasFile: bool, answers: seq<Option<string>>)
    requires Invariant(app)
    ensures Invariant(LoadVideo(app, hasFile, answers))
  {
  }

  /**
   * One firing of the countdown interval: 20 ms more have elapsed, the bar
   * shows `min(100, elapsed / 20)` percent, and at 2000 ms the interval is
   * cleared and recording stops.
   */
  function CountdownTick(app: App): (r: Ticked)
    requires app.countdown.Running?
    ensures 0.0 < r.bar <= 100.0
    ensures r.bar == 100.0 <==> r.app.countdown.Idle?
    ensures r.app.countdown.Idle? <==> app.countdown.elapsed + SampleMs >= RecordingMs
    ensures r.app.countdown.Running? ==>
              r.app.countdown.elapsed == app.countdown.elapsed + SampleMs && r.app.recording == app.recording
    ensures r.app.countdown.Idle? ==> !r.app.recording
    ensures r.app.countdown.Running? ==> r.bar * 20.0 == r.app.countdown.elapsed as real
    ensures r.app.collected == app.collected && r.app.lastSampleTime == app.lastSampleTime
    ensures r.app.patientCode == app.patientCode && r.app.euro == app.euro
  {
    var elapsed := app.countdown.elapsed + SampleMs;
    var progress := elapsed as real / 20.0;
    var bar := if 100.0 < progress then 100.0 else progress;
    if elapsed >= RecordingMs then
      Ticked(app.(countdown := Idle, recording := false), bar)
    else
      Ticked(app.(countdown := Running(elapsed)), bar)
  }

  /** The state after `k` firings of the interval (none once it is cleared). */
  function TicksAfter(app: App, k: nat): App
    requires app.countdown.Running?
  {
    if k == 0 then app
    else
      var p := TicksAfter(app, k - 1);
      if p.countdown.Idle? then p else CountdownTick(p).app
  }

  /**
   * A countdown started from zero runs for exactly 100 ticks: before that it
   * is still running with 20 ms per tick elapsed, from then on it is stopped
   * and recording is off. The collected data is never touched.
   */
  lemma {:induction false} CountdownStopsAfterHundredTicks(app: App, k: nat)
    requires app.countdown == Running(0)
    ensures k < 100 ==> TicksAfter(app, k).countdown == Running(SampleMs * k)
                        && TicksAfter(app, k).recording == app.recording
    ensures k >= 100 ==> TicksAfter(app, k).countdown.Idle? && !TicksAfter(app, k).recording
    ensures TicksAfter(app, k).collected == app.collected
  {
    if k > 0 {
      CountdownStopsAfterHundredTicks(app, k - 1);
    }
  }

  /**
   * The sample gate of the main loop: a sample is appended, and the sample
   * clock moved to `tNow`, exactly when recording is on and at least 20 ms
   * have passed since the last sample.
   */
  function SampleGate(app: App, tNow: real, j: Joints, line: Line, angles: Angles): (r: App)
    ensures var open := app.recording && tNow - app.lastSampleTime >= SampleMs as real;
            && (open ==> |r.collected| == |app.collected| + 1
                         && r.collected[..|app.collected|] == app.collected
                         && r.collected[|app.collected|].timestamp == tNow
                         && r.lastSampleTime == tNow)
            && (!open ==> r == app)
    ensures |r.collected| > |app.collected| ==>
              var s := r.collected[|app.collected|];
              && s.patientCode == app.patientCode
              && s.leftAngle == angles.left && s.rightAngle == angles.right
              && s.avgAngle == angles.average
              && s.sMid == line.sMid && s.hMid == line.hMid
              && s.leftHip == j.leftHip && s.rightHip == j.rightHip
              && s.leftKnee == j.leftKnee && s.rightKnee == j.rightKnee
    ensures r.patientCode == app.patientCode && r.euro == app.euro
    ensures r.recording == app.recording && r.countdown == app.countdown
  {
    if app.recording && tNow - app.lastSampleTime >= SampleMs as real then
      var s := Sample(app.patientCode, tNow, angles.average, angles.left, angles.right,
                      line.sMid, line.hMid, j.leftHip, j.rightHip, j.leftKnee, j.rightKnee);
      app.(lastSampleTime := tNow, collected := app.collected + [s])
    else
      app
  }

  /** The six landmarks `L` the loop picks out of the smoothed frame. */
  function SelectJoints(smooth: seq<Landmark>): (j: Joints)
    requires RightKnee < |smooth|
    ensures j.leftHip == smooth[LeftHip] && j.rightHip == smooth[RightHip]
    ensures j.leftKnee == smooth[LeftKnee] && j.rightKnee == smooth[RightKnee]
    ensures j.leftShoulder == smooth[LeftShoulder] && j.rightShoulder == smooth[RightShoulder]
  {
    Joints(smooth[LeftShoulder], smooth[RightShoulder], smooth[LeftHip], smooth[RightHip],
           smooth[LeftKnee], smooth[RightKnee])
  }

  /**
   * The joints `L` of a frame: each is its raw landmark run through the
   * filter triple with the same index.
   */
  function FrameJoints(pi: real, bank: seq<Channels>, t: real, raw: seq<RawLandmark>): (j: Joints)
    requires pi > 0.0 && ValidBank(bank) && RightKnee < |raw| <= |bank|
    ensures j.leftShoulder == SmoothLandmark(pi, bank[LeftShoulder], t, raw[LeftShoulder]).landmark
    ensures j.rightShoulder == SmoothLandmark(pi, bank[RightShoulder], t, raw[RightShoulder]).landmark
    ensures j.leftHip == SmoothLandmark(pi, bank[LeftHip], t, raw[LeftHip]).landmark
    ensures j.rightHip == SmoothLandmark(pi, bank[RightHip], t, raw[RightHip]).landmark
    ensures j.leftKnee == SmoothLandmark(pi, bank[LeftKnee], t, raw[LeftKnee]).landmark
    ensures j.rightKnee == SmoothLandmark(pi, bank[RightKnee], t, raw[RightKnee]).landmark
  {
    SelectJoints(SmoothedLandmarks(pi, bank, t, raw))
  }

  /**
   * A detection the loop can process without a failed property read. A
   * detection is the first pose's landmarks; `None` and `Some([])` both stand
   * for a frame with no pose.
   */
  predicate WellSized(detection: Option<seq<RawLandmark>>) {
    detection.Some? && |detection.value| > 0 ==> RightKnee < |detection.value| <= BankSize
  }

  /** `euro` after `ensureEuroFilters()`: the kept bank, or 33 fresh triples. */
  function CurrentBank(app: App): (bank: seq<Channels>)
    requires Invariant(app)
    ensures bank == EnsureEuroFilters(app.euro)
    ensures |bank| == BankSize && ValidBank(bank)
  {
    EnsureEuroFilters(app.euro)
  }

  /**
   * The body of the main loop for a frame with landmarks: the landmarks go
   * through the filter bank, the midline and both hip angles are computed
   * from the smoothed joints, and the sample gate decides whether to record
   * them.
   */
  function DetectedFrame(m: MathLib, app: App, tNow: real, raw: seq<RawLandmark>): (r: App)
    requires ValidMath(m) && Invariant(app) && RightKnee < |raw| <= BankSize
    ensures r.euro == Some(SmoothedBank(m.pi, CurrentBank(app), tNow, raw))
    ensures r.patientCode == app.patientCode && r.recording == app.recording
    ensures r.countdown == app.countdown
    ensures var open := app.recording && tNow - app.lastSampleTime >= SampleMs as real;
            && (open ==> |r.collected| == |app.collected| + 1
                         && r.collected[..|app.collected|] == app.collected)
            && (!open ==> r.collected == app.collected && r.lastSampleTime == app.lastSampleTime)
    ensures |r.collected| > |app.collected| ==>
              var j := FrameJoints(m.pi, CurrentBank(app), tNow, raw);
              var line := BodyMidline(m, j);
              var s := r.collected[|app.collected|];
              && s.timestamp == tNow && r.lastSampleTime == tNow
              && s.patientCode == app.patientCode
              && s.leftHip == j.leftHip && s.rightHip == j.rightHip
              && s.leftKnee == j.leftKnee && s.rightKnee == j.rightKnee
              && s.sMid == line.sMid && s.hMid == line.hMid
              && s.leftAngle == AbductionPerHip2D(m, j.leftHip, j.leftKnee, line.midDown)
              && s.rightAngle == AbductionPerHip2D(m, j.rightHip, j.rightKnee, line.midDown)
              && s.avgAngle == Average(s.leftAngle, s.rightAngle)
    ensures Invariant(r)
  {
    var bank := CurrentBank(app);
    var j := FrameJoints(m.pi, bank, tNow, raw);
    var filtered := app.(euro := Some(SmoothedBank(m.pi, bank, tNow, raw)));
    NewBankKeepsInvariant(app, SmoothedBank(m.pi, bank, tNow, raw));
    GatePreservesInvariant(filtered, tNow, j, BodyMidline(m, j), FrameAngles(m, j));
    SampleGate(filtered, tNow, j, BodyMidline(m, j), FrameAngles(m, j))
  }

  /**
   * One pass of the main loop over a new video frame: a frame without
   * landmarks changes nothing, and a sample is added exactly when there are
   * landmarks, recording is on and the sample clock allows it.
   */
  function ProcessFrame(m: MathLib, app: App, tNow: real, detection: Option<seq<RawLandmark>>): (r: App)
    requires ValidMath(m) && Invariant(app) && WellSized(detection)
    ensures detection.None? || |detection.value| == 0 ==> r == app
    ensures detection.Some? && |detection.value| > 0 ==> r == DetectedFrame(m, app, tNow, detection.value)
    ensures detection.Some? && |detection.value| > 0 ==> r.euro.Some?
    ensures r.patientCode == app.patientCode && r.recording == app.recording
    ensures r.countdown == app.countdown
    ensures |r.collected| == |app.collected| + 1 <==>
              detection.Some? && |detection.value| > 0
              && app.recording && tNow - app.lastSampleTime >= SampleMs as real
    ensures |app.collected| <= |r.collected| <= |app.collected| + 1
    ensures r.collected[..|app.collected|] == app.collected
    ensures Invariant(r)
  {
    if detection.None? || |detection.value| == 0 then app
    else DetectedFrame(m, app, tNow, detection.value)
  }

  /** Replacing the filter bank by a valid one of the right size keeps the invariant. */
  lemma NewBankKeepsInvariant(app: App, bank: seq<Channels>)
    requires Invariant(app) && |bank| == BankSize && ValidBank(bank)
    ensures Invariant(app.(euro := Some(bank)))
  {
  }

  /** The sample gate keeps the invariant when handed in-range angles and their mean. */
  lemma GatePreservesInvariant(app: App, tNow: real, j: Joints, line: Line, angles: Angles)
    requires Invariant(app)
    requires 0.0 <= angles.left <= 180.0 && 0.0 <= angles.right <= 180.0
    requires angles.average == Average(angles.left, angles.right)
    ensures Invariant(SampleGate(app, tNow, j, line, angles))
  {
  }

  /**
   * One event. A start press while the countdown runs is ignored (the
   * button is disabled), and so is a tick while no countdown runs (the
   * interval has been cleared).
   */
  method Step(m: MathLib, app: App, e: Event) returns (r: App)
    requires ValidMath(m) && Invariant(app)
    requires e.Frame? ==> WellSized(e.detection)
    ensures Invariant(r)
    ensures !e.Frame? ==> r.euro == app.euro && r.lastSampleTime == app.lastSampleTime
    ensures e.Start? && app.countdown.Idle? ==> r == StartRecording(app, e.answers)
    ensures e.Start? && app.countdown.Running? ==> r == app
    ensures e.Tick? && app.countdown.Running? ==> r == CountdownTick(app).app
    ensures e.Tick? && app.countdown.Idle? ==> r == app
    ensures e.Load? ==> r == LoadVideo(app, e.hasFile, e.answers)
    ensures e.Frame? ==> r == ProcessFrame(m, app, e.tNow, e.detection)
  {
    match e
    case Start(answers) =>
      if app.countdown.Idle? {
        r := StartRecording(app, answers);
      } else {
        r := app;
      }
    case Tick =>
      if app.countdown.Running? {
        r := CountdownTick(app).app;
      } else {
        r := app;
      }
    case Load(hasFile, answers) =>
      LoadVideoPreservesInvariant(app, hasFile, answers);
      r := LoadVideo(app, hasFile, answers);
    case Frame(tNow, detection) =>
      r := ProcessFrame(m, app, tNow, detection);
  }

  /**
   * A whole session from page load. Whatever the interleaving of button
   * presses, countdown ticks and frames (and whatever the frame times), the
   * collected samples carry a valid patient code, their angles lie in
   * [0, 180] with the average their mean, and consecutive samples are at
   * least 20 ms apart.
   */
  method Replay(m: MathLib, events: seq<Event>) returns (app: App)
    requires ValidMath(m)
    requires forall i :: 0 <= i < |events| ==> events[i].Frame? ==> WellSized(events[i].detection)
    ensures SamplesSpaced(app.collected)
    ensures |app.collected| > 0 ==> app.patientCode.Some? && PatientCode.ValidCode(app.patientCode.value)
    ensures forall i :: 0 <= i < |app.collected| ==> WellFormed(app.collected[i], app.patientCode)
    ensures app.recording <==> app.countdown.Running?
  {
    app := Initial;
    var i := 0;
    while i < |events|
      invariant 0 <= i <= |events|
      invariant Invariant(app)
    {
      app := Step(m, app, events[i]);
      i := i + 1;
    }
  }
}

=== FILE: zones.dfy ===
/** The colour zones `colAbd` paints an angle with, by the `SAFE` thresholds. */
module Zones {

  const GreenMin: real := 30.0
  const GreenMax: real := 45.0
  const YellowMax: real := 60.0

  datatype Zone = Green | Yellow | Red

  /** `colAbd(a)`, as the zone whose colour it returns. */
  function ColAbd(a: real): (z: Zone)
    ensures z == Green <==> 30.0 <= a <= 45.0
    ensures z == Yellow <==> 45.0 < a <= 60.0
    ensures z == Red <==> a < 30.0 || a > 60.0
  {
    if a >= GreenMin && a <= GreenMax then Green
    else if a > GreenMax && a <= YellowMax then Yellow
    else Red
  }

  /** A lower-case hexadecimal digit, as CSS colours are written here. */
  predicate IsHexDigit(c: char) {
    '0' <= c <= '9' || 'a' <= c <= 'f'
  }

  /** The CSS colour `colAbd` returns for each zone: a `#rrggbb` literal. */
  function Colour(z: Zone): (css: string)
    ensures |css| == 7 && css[0] == '#'
    ensures forall i :: 1 <= i < |css| ==> IsHexDigit(css[i])
  {
    match z
    case Green => "#34a853"
    case Yellow => "#f9ab00"
    case Red => "#ea4335"
  }

  /** Distinct zones are painted in distinct colours. */
  lemma ColoursDistinct(z1: Zone, z2: Zone)
    ensures Colour(z1) == Colour(z2) <==> z1 == z2
  {
  }

  /** Zones follow the angle: green lies below yellow, and both lie inside [30, 60]. */
  lemma ZonesAreOrdered(a: real, b: real)
    requires ColAbd(a) == Green && ColAbd(b) == Yellow
    ensures GreenMin <= a < b <= YellowMax
  {
  }
}
